=== FILE: README.md ===
# Climate Sync — a Dafny model of the synchronisation manager

Climate Sync keeps a target climate device mirroring a source climate
device. Its `ClimateSyncManager` runs a sync cycle on every source change
and on a periodic timer. The cycle mirrors the source's HVAC mode and
setpoints onto the target. It adds an optional proportional offset, clamps
each setpoint into the target's settable range and swaps an inverted
low/high band. While the source is actively heating or cooling, the cycle
can also put the target in a temporary "boost" posture: an extreme
setpoint, the most powerful fan and automatic swing. Boost has
hysteresis. It is entered only after the source has acted continuously for
an activation delay. Once entered, it is held for a minimum runtime. When
it ends, the target's fan and swing modes from before boost are restored.

The model is functional. One cycle is the pure function
`SyncManager.Cycle(cfg, manager, source, target, now, rejects)`. It returns
the new manager, the ordered service calls made on the target, and how
the cycle ended.

- `manager` holds the re-entrancy guard (`syncing`) and the immutable
  hysteresis state `Hysteresis.State`. That state holds the continuity
  clock, the boost flag and start time, and the saved fan and swing modes.
- `source` and `target` are the snapshots read from the host, or `None`
  when an entity is not found. Attributes an entity does not report are
  `None`. Missing `min_temp`/`max_temp` default to 16 and 30, and missing
  fan/swing mode lists are empty.
- `now` is the clock in whole seconds. The source compares elapsed minutes
  with the activation delay and the minimum runtime. The model compares
  `now - start` with `minutes * 60`.
- `rejects` is the set of service calls the host refuses. Each kind of
  call is made at most once per cycle, so this set describes any
  deterministic host for one cycle. A refused boost call aborts the rest
  of the cycle, and so does a refused mode or temperature call in the
  normal procedure. The manager logs and swallows the error. A refused
  restore of fan or swing is suppressed, and the cycle goes on.
- Temperatures are exact `real`s.

Modules: `Options` (optional values), `Climate` (snapshots, commands,
configuration), `Dispatch` (ordered calls aborted by the first refusal),
`Setpoints` (offset, clamp, dual-setpoint band), `Boost` (boost calls, fan
priority list, restore calls), `Hysteresis` (state, continuity clock,
activation and exit tests, save-once bookkeeping), `SyncManager` (procedures,
cycle, event filter), `CycleProperties` (properties of one cycle), `Traces`
(properties of a sequence of cycles), `Scenarios` (concrete cycles).

The boost and exit decisions themselves are the functions
`Hysteresis.ShouldActivate`, `Hysteresis.CanExit` and `Hysteresis.Boosting`
(custom_components/climate_sync/__init__.py lines 285-343). What they mean
for a cycle is stated by `CycleProperties.ActivationRule`,
`CycleProperties.RuntimeLockHoldsBoost`, `CycleProperties.BoostExit` and its
converse `CycleProperties.BoostHeldRule`. `CycleProperties.BoostCycleSendsBoostCalls`
and `CycleProperties.NormalCycleMirrorsSource` state what a cycle sends on
each branch.

The runtime lock can hold boost after the source has stopped heating.
The boost procedure then picks its posture from the current action, which
is no longer "heating". So the target is switched to cool at its minimum
setpoint, even though the episode began as a heating one. The model keeps
this behaviour. `RuntimeLockHoldsBoost` states it in general and
`Scenarios.LockedIdleBoostCools` shows it on concrete readings.

## Model

All source paths are in `custom_components/climate_sync/__init__.py`.

| member | source | states |
|---|---|---|
| `Setpoints.Clamp` | custom_components/climate_sync/__init__.py:664-668 | The clamped value lies in [min, max] when min ≤ max. A value already in range is unchanged. Below the range it becomes min, above it becomes max, and with an inverted range the result is min. |
| `Setpoints.Place` | custom_components/climate_sync/__init__.py:664-667 | With min ≤ max, the value sent lies in [min, max]. A shifted setpoint inside the range is sent as is. Below the range it becomes min, and above it becomes max. |
| `Setpoints.Offset` | custom_components/climate_sync/__init__.py:568-575 | The offset is 0 unless the offset is enabled and both current temperatures are known. With sensitivity 1, the target's reading plus the offset is the source's reading. With a positive sensitivity the offset is positive exactly when the source is warmer. |
| `Setpoints.OffsetIsProportional` | custom_components/climate_sync/__init__.py:575 | The offset with sensitivity k is k times the offset with sensitivity 1. |
| `Setpoints.PlaceBand` | custom_components/climate_sync/__init__.py:603-656 | Each bound is present exactly when the source's bound is. When both are present, low ≤ high. The two values sent are, as a multiset, the two clamped shifted bounds. A lone bound is its clamped shifted value. Every value sent lies in [min, max] when min ≤ max. |
| `Setpoints.InRangeBandUnchanged` | custom_components/climate_sync/__init__.py:608-650 | An ordered band inside the target's range, with no offset, is sent unchanged. |
| `Setpoints.TemperatureCommand` | custom_components/climate_sync/__init__.py:603-691 | No call is made exactly when the mode's setpoints are missing: both low and high for heat_cool, the single setpoint otherwise. heat_cool sends the placed band, ignoring the single setpoint. Other modes send the placed single setpoint. When min ≤ max, everything sent is within range. A band is never inverted. |
| `Dispatch.Send` | custom_components/climate_sync/__init__.py:414-443 | The calls made are a prefix of the list. The list is made whole exactly when the host accepts every call in it. Otherwise it ends with the first refused call, and every earlier call was accepted. |
| `Boost.FirstSupported` | custom_components/climate_sync/__init__.py:446-451 | The returned index names a supported entry, and no earlier entry is supported. None means no entry is supported. |
| `Boost.BoostFan` | custom_components/climate_sync/__init__.py:445-470 | The chosen fan is supported and is the first supported name in the fixed priority list. There is no fan exactly when none of the list is supported. |
| `Boost.BoostPosture` | custom_components/climate_sync/__init__.py:399-405 | The mode is heat exactly when the action is heating, and cool otherwise. Heat uses the target's maximum and cool its minimum. With min ≤ max, these are the extremes of every value a clamped setpoint can take. |
| `Boost.BoostCommands` | custom_components/climate_sync/__init__.py:399-490 | First the boost mode, then the boost setpoint, so mode comes before temperature. After that the only calls are fan and swing. A fan call is made exactly for the preferred supported fan. A swing call is made exactly when "auto" is supported, and it asks for "auto". There are exactly two calls plus one per supported choice, and when both are made the fan comes before the swing. |
| `Boost.Restorable` | custom_components/climate_sync/__init__.py:514 | A saved mode is restored exactly when it is neither missing nor the empty string (the falsy values of an optional name). |
| `Boost.RestoreCommands` | custom_components/climate_sync/__init__.py:513-543 | A fan or swing restore is made exactly when its saved value is present and non-empty, and it uses that value. Fan comes before swing, and there are no other calls. |
| `Hysteresis.TrackAction` | custom_components/climate_sync/__init__.py:268-283 | While acting, the clock start is kept if present and set to now if absent. Any other action clears it. Nothing else in the state changes. |
| `Hysteresis.ShouldActivate` | custom_components/climate_sync/__init__.py:285-290 | Activation is due only when boost is enabled, the source is acting, and a run start is recorded. With a recorded start, it is due exactly from the instant start + delay onwards. |
| `Hysteresis.CanExit` | custom_components/climate_sync/__init__.py:309-313 | Outside boost nothing holds. Inside boost, the lock holds until the instant start + minimum runtime. With a zero runtime it never holds once the clock has reached the start. |
| `Hysteresis.Boosting` | custom_components/climate_sync/__init__.py:343 | Outside boost, the boost branch runs exactly when activation is due. Inside boost, it always runs while the runtime lock holds. Once the lock is over, it runs exactly when activation is due again. |
| `Hysteresis.Enter` | custom_components/climate_sync/__init__.py:384-397 | Boost is active afterwards. An already-active state is left exactly as it is. Otherwise the target's fan and swing are saved and the start is stamped with now. The state invariant is preserved. |
| `Hysteresis.Leave` | custom_components/climate_sync/__init__.py:545-549 | Boost is inactive and every boost field is cleared. The continuity clock is untouched. |
| `SyncManager.NormalCommands` | custom_components/climate_sync/__init__.py:551-707 | The source's mode is always set first. A temperature call follows exactly when the mode has a setpoint. Outside heat_cool it is the source's setpoint shifted by the offset and placed in the target's range. In heat_cool it is the source's band shifted and placed the same way. When min ≤ max it lies within the target's range. A band is never inverted. |
| `SyncManager.BoostProcedure` | custom_components/climate_sync/__init__.py:374-490 | Boost is recorded as active whether or not a call is refused, with saves and start written only when boost was inactive. The calls made are a prefix of the boost calls. The procedure completes exactly when the host accepts all of them. |
| `SyncManager.NormalProcedure` | custom_components/climate_sync/__init__.py:492-707 | Afterwards boost is inactive and the continuity clock is untouched. When boost was active, the restores come first and are always made, and the boost fields are cleared. Setting the mode always follows, and the rest is a prefix of the normal calls. A completed procedure made the restores and then every normal call, a refused restore included. |
| `SyncManager.Synchronise` | custom_components/climate_sync/__init__.py:205-365 | A missing entity or an unavailable/unknown source ends the cycle with no calls and an unchanged state. With a live source the outcome is completed or failed, never an early stop. A failed procedure ends with the refused call. Which calls each branch makes is stated by `CycleProperties.BoostCycleSendsBoostCalls` and `CycleProperties.NormalCycleMirrorsSource`. The state invariant is preserved. |
| `SyncManager.Cycle` | custom_components/climate_sync/__init__.py:196-372 | A cycle started while the guard is held makes no calls and changes nothing. Otherwise the guard is released on every exit. Early stops make no calls and keep the state. A failed cycle ends with the refused call. The invariant "boost active ⇔ start present, nothing saved outside boost" is preserved. |
| `SyncManager.OnSourceChanged` | custom_components/climate_sync/__init__.py:167-194 | A cycle is scheduled only when no cycle holds the guard and the new state is present and live. Otherwise the event is dropped. |
| `CycleProperties.ActivationDueMatches` | custom_components/climate_sync/__init__.py:269-291 | The activation test, made after the clock update, holds exactly when boost is enabled and the source is acting. The run must have lasted the delay, counting a run that starts now as zero seconds. |
| `CycleProperties.ContinuityClock` | custom_components/climate_sync/__init__.py:262-283 | After a cycle on a live source, the clock start is kept while the source keeps acting, set to now when acting begins, and cleared otherwise. |
| `CycleProperties.ActivationRule` | custom_components/climate_sync/__init__.py:285-343 | From outside boost, a cycle enters boost if and only if boost is enabled and the source is live and acting. It must also have acted for the activation delay. |
| `CycleProperties.BoostDisabledStaysNormal` | custom_components/climate_sync/__init__.py:286-365 | With boost disabled and inactive, a cycle never activates boost and never sends a fan or swing call. With a live source, its first call sets the source's mode. |
| `CycleProperties.RuntimeLockHoldsBoost` | custom_components/climate_sync/__init__.py:309-352 | While boost is active and younger than the minimum runtime, the boost procedure runs whatever the action is, and the boost fields are unchanged. Heating gives heat at the target's max. Any other action, idle included, gives cool at its min. |
| `CycleProperties.BoostExit` | custom_components/climate_sync/__init__.py:504-566 | After the minimum runtime, with boost not due, the restorable saved modes are sent first. Every boost field is then cleared, even when a restore is refused. Setting the source's mode always follows. |
| `CycleProperties.BoostHeldRule` | custom_components/climate_sync/__init__.py:309-343 | In boost, a cycle keeps boost exactly while the minimum runtime is still running or activation is due. So boost is left only when both are over. |
| `CycleProperties.BoostCycleSendsBoostCalls` | custom_components/climate_sync/__init__.py:343-352 | When activation is due, or boost is held by the runtime lock, the cycle keeps boost. It sends a prefix of the boost calls for the current action, and all of them exactly when the host accepts them all. This covers entering boost, locked cycles, and boost held past the runtime while activation is due. |
| `CycleProperties.NormalCycleMirrorsSource` | custom_components/climate_sync/__init__.py:343-365 | When boost is not due and any runtime lock is over, the cycle leaves boost. After any restores it sends a prefix of the source's mode and its placed setpoint(s). It completes exactly when the host accepts those calls. A host that accepts them gets the restores followed by exactly those calls. |
| `CycleProperties.SaveOncePerEpisode` | custom_components/climate_sync/__init__.py:384-397 | A boosted cycle starting in boost keeps the saved modes and the start time. A boosted cycle starting outside boost saves the target's current fan and swing and stamps now. |
| `CycleProperties.FailuresDoNotChangeState` | custom_components/climate_sync/__init__.py:384-443 | The host refusing calls never changes the resulting state: bookkeeping is not rolled back. The calls made are a prefix of those a host refusing nothing sees. |
| `CycleProperties.RepeatedCycleIsStable` | custom_components/climate_sync/__init__.py:196-372 | Re-running a cycle at the same moment on the same readings leaves the state where the first run put it. It repeats the same calls: all of them, or all but the restores of a boost exit. |
| `CycleProperties.NormalCallsIgnoreHistory` | custom_components/climate_sync/__init__.py:551-707 | With boost disabled, two managers outside boost make the same calls on the same readings at any two moments. Calls are not deduplicated across cycles. |
| `CycleProperties.ScheduledEventSyncs` | custom_components/climate_sync/__init__.py:167-223 | A scheduled event's source state gets past the availability checks of the cycle that reads it. That cycle makes calls and releases the guard. |
| `Traces.Run` | custom_components/climate_sync/__init__.py:196-202 | Over any sequence of cycles, the guard ends released and the state invariant is preserved. |
| `Traces.DisabledBoostNeverEngages` | custom_components/climate_sync/__init__.py:286-291 | With boost disabled, a manager outside boost never enters it and never sends a fan or swing call, over any number of cycles. |
| `Traces.NoBoostBeforeDelay` | custom_components/climate_sync/__init__.py:268-291 | Across cycles of uninterrupted acting, all before the activation delay, the clock start stays fixed and boost is never entered. |
| `Traces.BoostEngagesAtDelay` | custom_components/climate_sync/__init__.py:285-291 | After such cycles, the next acting cycle enters boost exactly when it comes at least the delay after the start, and not one second before. |
| `Scenarios.OffsetExamples` | custom_components/climate_sync/__init__.py:568-575 | 22 against 20 gives offset 2 with sensitivity 1 and offset 1 with sensitivity 0.5. A missing reading or a disabled offset gives 0. |
| `Scenarios.ClampExamples` | custom_components/climate_sync/__init__.py:603-650 | In [16, 30], 34 is sent as 30 and 10 as 16. The band 26/24 is sent as 24/26. |
| `Scenarios.FirstCycleBoosts` | custom_components/climate_sync/__init__.py:343-490 | A heating source with no delay boosts on a fresh manager's first cycle: heat, 30, fan "high" (the best supported), swing "auto". It saves the old fan. |
| `Scenarios.LockedIdleBoostCools` | custom_components/climate_sync/__init__.py:400-405 | A heating boost held by the runtime lock after the source goes idle sends cool at 16. |
| `Scenarios.RefusedBoostKeepsBookkeeping` | custom_components/climate_sync/__init__.py:415-428 | A refused boost mode call ends the cycle after that call, yet boost is recorded as entered at now. |

## Left out

- Home Assistant wiring is not modelled. This covers `async_setup_entry`, `async_update_options` and `async_unload_entry` (lines 45-138), the listener and timer registration, and the initial sync. They only register callbacks and store the manager. `Traces.Run` stands for the cycles they trigger.
- The host's service-call mechanism is not modelled. Each call becomes a `Command` value, and the host's answer is the `rejects` parameter.
- Scheduling is not modelled. `hass.async_create_task` and async suspension are out, and the guard is a boolean in a sequential model. `OnSourceChanged` reports `Scheduled` instead of starting a task.
- Logging is not modelled, and neither are the temperature-unit lookups (lines 577 and 601). Both are diagnostic only. The event's old state is used only in a log line.
- Floating-point rounding is not modelled; temperatures are exact reals.
- Time is a whole number of seconds. `datetime.now()` becomes the cycle's `now`, including the second clock read at line 388 that stamps the boost start.
- `BOOST_ACTIVATION_DELAY` and `BOOST_MINIMUM_RUNTIME` are configuration fields in minutes. They are imported at lines 38-39, but `const.py` does not define them.
- Attribute values of the wrong type are not modelled. An example is a `fan_modes` attribute present but `None`, which would raise inside the cycle and be swallowed by the handler at lines 369-370.
- `custom_components/__init__.py` is an earlier revision of the same manager and is not part of this model. It has no activation delay or runtime lock, no clamping or band swap, and restore failures are not suppressed there.
- `config_flow.py` (both copies) and `const.py` are not part of this model. They hold form schemas, key names and defaults. Their one check, that source and target differ, is outside the cycle.
- RepeatedCycleIsStable: compares two cycles at the same `now`. A later repeat can legitimately differ, because the activation delay may elapse or the runtime lock expire in between. `NormalCallsIgnoreHistory` covers later repeats when boost is disabled.

=== FILE: boost.dfy ===
/** The command lists of the boost posture and of its undoing: the
    boosted mode and extreme setpoint, the fan chosen from a priority
    list, automatic swing, and the restore of the saved fan and swing. */
module Boost {
  import opened Options
  import opened Climate
  import opened Setpoints

  /** Fan-speed names, most powerful first; "auto" is the last resort. */
  const FanPreference: seq<string> := ["superPowerful", "powerful", "high", "medium", "low", "auto"]

  /** The swing mode boost asks for. */
  const AutoSwing: string := "auto"

  /** The index of the first entry of `prefs` that `supported` contains. */
  function FirstSupported(prefs: seq<string>, supported: seq<string>): (r: Option<nat>)
    ensures r.Some? ==>
      && r.value < |prefs|
      && prefs[r.value] in supported
      && forall j :: 0 <= j < r.value ==> prefs[j] !in supported
    ensures r.None? ==> forall j :: 0 <= j < |prefs| ==> prefs[j] !in supported
  {
    if |prefs| == 0 then
      None
    else if prefs[0] in supported then
      Some(0)
    else
      match FirstSupported(prefs[1..], supported)
      case None => None
      case Some(i) => Some(i + 1)
  }

  /** The fan mode boost selects: the most powerful preference the target
      supports, or none when it supports none of them. */
  function BoostFan(fanModes: seq<string>): (r: Option<string>)
    ensures r.None? <==> forall j :: 0 <= j < |FanPreference| ==> FanPreference[j] !in fanModes
    ensures r.Some? ==>
      && r.value in fanModes
      && exists i :: 0 <= i < |FanPreference| && FanPreference[i] == r.value
           && forall j :: 0 <= j < i ==> FanPreference[j] !in fanModes
  {
    match FirstSupported(FanPreference, fanModes)
    case None => None
    case Some(i) => Some(FanPreference[i])
  }

  /** The boosted mode and setpoint. */
  datatype Posture = Posture(mode: HvacMode, temp: real)

  /** Heating drives the target to heat at its maximum setpoint; any other
      action, idle included, drives it to cool at its minimum. */
  function BoostPosture(action: Option<HvacAction>, lo: real, hi: real): (p: Posture)
    ensures p.mode == Heat <==> action == Some(Heating)
    ensures p.mode == Heat || p.mode == Cool
    ensures p.mode == Heat ==> p.temp == hi
    ensures p.mode == Cool ==> p.temp == lo
    ensures lo <= hi && p.mode == Heat ==> forall x :: Place(x, 0.0, lo, hi) <= p.temp
    ensures lo <= hi && p.mode == Cool ==> forall x :: p.temp <= Place(x, 0.0, lo, hi)
  {
    if action == Some(Heating) then Posture(Heat, hi) else Posture(Cool, lo)
  }

  /** The calls of the boost procedure, in the order it makes them: mode,
      setpoint, then fan and swing when the target supports a choice. */
  function BoostCommands(action: Option<HvacAction>, target: Snapshot): (cmds: seq<Command>)
    ensures 2 <= |cmds| <= 4
    ensures cmds[0] == SetHvacMode(BoostPosture(action, target.MinTemp(), target.MaxTemp()).mode)
    ensures cmds[1] == SetTemperature(BoostPosture(action, target.MinTemp(), target.MaxTemp()).temp)
    ensures forall f :: SetFanMode(f) in cmds <==> BoostFan(target.fanModes) == Some(f)
    ensures forall s :: SetSwingMode(s) in cmds <==> s == AutoSwing && AutoSwing in target.swingModes
    ensures forall i :: 2 <= i < |cmds| ==> cmds[i].SetFanMode? || cmds[i].SetSwingMode?
    ensures |cmds| == 2 + (if BoostFan(target.fanModes).Some? then 1 else 0)
                        + (if AutoSwing in target.swingModes then 1 else 0)
    ensures |cmds| == 4 ==> cmds[2].SetFanMode? && cmds[3].SetSwingMode?
  {
    var posture := BoostPosture(action, target.MinTemp(), target.MaxTemp());
    var fan := match BoostFan(target.fanModes)
      case Some(f) => [SetFanMode(f)]
      case None => [];
    var swing := if AutoSwing in target.swingModes then [SetSwingMode(AutoSwing)] else [];
    [SetHvacMode(posture.mode), SetTemperature(posture.temp)] + fan + swing
  }

  /** A saved mode is put back only when it is a non-empty name (the
      source tests it for truthiness): the only falsy values of an
      optional name are a missing one and the empty string. */
  function Restorable(saved: Option<string>): (ok: bool)
    ensures ok <==> saved != None && saved != Some("")
    ensures ok ==> |saved.value| > 0
  {
    saved.Some? && saved.value != ""
  }

  /** The restore calls made when boost is left: fan first, then swing,
      each only when its saved value is restorable. */
  function RestoreCommands(savedFan: Option<string>, savedSwing: Option<string>): (cmds: seq<Command>)
    ensures |cmds| <= 2
    ensures forall f :: SetFanMode(f) in cmds <==> Restorable(savedFan) && f == savedFan.value
    ensures forall s :: SetSwingMode(s) in cmds <==> Restorable(savedSwing) && s == savedSwing.value
    ensures forall i :: 0 <= i < |cmds| ==> cmds[i].SetFanMode? || cmds[i].SetSwingMode?
    ensures |cmds| == 2 ==> cmds[0].SetFanMode? && cmds[1].SetSwingMode?
  {
    (if Restorable(savedFan) then [SetFanMode(savedFan.value)] else [])
      + (if Restorable(savedSwing) then [SetSwingMode(savedSwing.value)] else [])
  }
}

=== FILE: climate.dfy ===
/** The vocabulary of a climate entity as the sync manager sees it: the
    snapshot read from the host each cycle, the commands the manager
    sends to the target, and the manager's configuration. */
module Climate {
  import opened Options

  /** The HVAC modes a climate entity reports as its state. */
  datatype HvacMode = Off | Heat | Cool | HeatCool | Auto | Dry | FanOnly

  /** What a climate device is currently doing (its `hvac_action` attribute).
      `Stopped` is the host's action value "off", named apart from the
      mode `Off`. */
  datatype HvacAction = Heating | Cooling | Idle | Drying | Fan | Preheating | Defrosting | Stopped

  /** The state of an entity: the host marks dead entities unavailable or
      unknown; a live climate entity's state is its HVAC mode. */
  datatype EntityState = Unavailable | Unknown | Mode(mode: HvacMode)

  /** Setpoint range the manager assumes when the target does not report
      `min_temp` / `max_temp`. */
  const DefaultMinTemp: real := 16.0
  const DefaultMaxTemp: real := 30.0

  const SecondsPerMinute: nat := 60

  /** One read of an entity: its state and the attributes the manager uses.
      An attribute the entity does not report is `None`, or the empty list
      for the supported fan and swing modes. */
  datatype Snapshot = Snapshot(
    state: EntityState,
    action: Option<HvacAction>,
    currentTemp: Option<real>,
    targetTemp: Option<real>,
    targetTempLow: Option<real>,
    targetTempHigh: Option<real>,
    minTemp: Option<real>,
    maxTemp: Option<real>,
    fanModes: seq<string>,
    swingModes: seq<string>,
    fanMode: Option<string>,
    swingMode: Option<string>)
  {
    /** Neither unavailable nor unknown. */
    predicate IsLive() {
      state.Mode?
    }

    /** Actively heating or cooling. */
    predicate IsActing() {
      action == Some(Heating) || action == Some(Cooling)
    }

    function MinTemp(): real {
      minTemp.GetOr(DefaultMinTemp)
    }

    function MaxTemp(): real {
      maxTemp.GetOr(DefaultMaxTemp)
    }
  }

  /** A service call on the target climate entity. A dual-setpoint call
      carries whichever of low/high is known, and at least one of them. */
  datatype Command =
    | SetHvacMode(mode: HvacMode)
    | SetTemperature(temp: real)
    | SetTemperatureRange(low: Option<real>, high: Option<real>)
    | SetFanMode(fan: string)
    | SetSwingMode(swing: string)

  /** The manager's options. The two boost timings are in minutes. */
  datatype Config = Config(
    enableOffset: bool,
    enableBoost: bool,
    sensitivity: real,
    activationDelay: nat,
    minimumRuntime: nat)
}

=== FILE: dispatch.dfy ===
/** Sending an ordered list of commands to the host. Every call is
    blocking; a call the host refuses is re-raised by the manager, which
    aborts the calls after it. The host is modelled by the set of command
    values it refuses. */
module Dispatch {
  import opened Options
  import opened Climate

  /** The calls actually made, and the refused call that ended the list early, if any. */
  datatype Sent = Sent(issued: seq<Command>, failed: Option<Command>)

  /** Every command of `cmds` is accepted by the host. */
  predicate AllAccepted(cmds: seq<Command>, rejects: set<Command>) {
    forall i :: 0 <= i < |cmds| ==> cmds[i] !in rejects
  }

  /** Issues `cmds` in order until the first refused one, which is issued
      and then ends the sequence. */
  function Send(cmds: seq<Command>, rejects: set<Command>): (s: Sent)
    ensures s.failed.None? <==> AllAccepted(cmds, rejects)
    ensures s.failed.None? ==> s.issued == cmds
    ensures s.failed.Some? ==>
      && 0 < |s.issued| <= |cmds|
      && s.issued == cmds[..|s.issued|]
      && s.issued[|s.issued| - 1] == s.failed.value
      && s.failed.value in rejects
      && AllAccepted(s.issued[..|s.issued| - 1], rejects)
  {
    if |cmds| == 0 then
      Sent([], None)
    else if cmds[0] in rejects then
      Sent([cmds[0]], Some(cmds[0]))
    else
      var rest := Send(cmds[1..], rejects);
      assert AllAccepted(cmds, rejects) <==> AllAccepted(cmds[1..], rejects) by {
        assert forall i :: 1 <= i < |cmds| ==> cmds[i] == cmds[1..][i - 1];
      }
      Sent([cmds[0]] + rest.issued, rest.failed)
  }
}

=== FILE: hysteresis.dfy ===
/** The manager's private hysteresis state and the boost decision made
    from it: the continuity clock, the delay-gated activation and the
    runtime-gated exit. Times are seconds on one integer clock. */
module Hysteresis {
  import opened Options
  import opened Climate

  /** `actionStart`: when the source's current run of heating or cooling began.
      `boostStart`, `savedFan`, `savedSwing`: when boost was entered and the
      target's fan and swing modes at that moment. */
  datatype State = State(
    actionStart: Option<nat>,
    boostActive: bool,
    boostStart: Option<nat>,
    savedFan: Option<string>,
    savedSwing: Option<string>)

  /** The state of a freshly constructed manager. */
  const Initial: State := State(None, false, None, None, None)

  /** Boost has a start time exactly while it is active, and nothing is
      saved outside a boost episode. */
  predicate Valid(st: State) {
    && (st.boostActive <==> st.boostStart.Some?)
    && (!st.boostActive ==> st.savedFan.None? && st.savedSwing.None?)
  }

  /** Starts the continuity clock when the source starts acting, keeps it
      while the source keeps acting, and clears it on any other action. */
  function TrackAction(st: State, acting: bool, now: nat): (st': State)
    ensures acting ==> st'.actionStart.Some?
    ensures acting && st.actionStart.Some? ==> st' == st
    ensures acting && st.actionStart.None? ==> st'.actionStart == Some(now)
    ensures !acting ==> st'.actionStart.None?
    ensures st'.(actionStart := st.actionStart) == st
  {
    if acting then
      if st.actionStart.None? then st.(actionStart := Some(now)) else st
    else
      st.(actionStart := None)
  }

  /** Seconds elapsed since `since`; negative if the clock went backwards. */
  function Elapsed(since: nat, now: nat): int {
    now - since
  }

  /** Boost is wanted once the source has been acting for the activation
      delay: from the instant `start + delay` of a recorded run onwards,
      and never while boost is disabled, the source is idle or no run is
      recorded. */
  function ShouldActivate(cfg: Config, st: State, acting: bool, now: nat): (due: bool)
    ensures due ==> cfg.enableBoost && acting && st.actionStart.Some?
    ensures st.actionStart.Some? ==>
      (due <==> cfg.enableBoost && acting && st.actionStart.value + cfg.activationDelay * SecondsPerMinute <= now)
  {
    && cfg.enableBoost
    && acting
    && st.actionStart.Some?
    && Elapsed(st.actionStart.value, now) >= cfg.activationDelay * SecondsPerMinute
  }

  /** Boost may be left unless it started less than the minimum runtime
      ago: outside boost there is nothing holding, and inside it the lock
      lasts until the instant `boostStart + runtime`. */
  function CanExit(cfg: Config, st: State, now: nat): (free: bool)
    ensures !st.boostActive ==> free
    ensures st.boostActive && st.boostStart.Some? ==>
      (free <==> st.boostStart.value + cfg.minimumRuntime * SecondsPerMinute <= now)
    ensures cfg.minimumRuntime == 0 && st.boostStart.Some? && st.boostStart.value <= now ==> free
  {
    !(st.boostActive && st.boostStart.Some?
      && Elapsed(st.boostStart.value, now) < cfg.minimumRuntime * SecondsPerMinute)
  }

  /** The branch of the cycle: the boost procedure or the normal one.
      Outside boost it is exactly the activation rule; inside boost the
      runtime lock keeps it, and once the lock has expired it is again
      the activation rule alone. */
  function Boosting(cfg: Config, st: State, acting: bool, now: nat): (boost: bool)
    ensures !st.boostActive ==> (boost <==> ShouldActivate(cfg, st, acting, now))
    ensures st.boostActive && !CanExit(cfg, st, now) ==> boost
    ensures CanExit(cfg, st, now) ==> (boost <==> ShouldActivate(cfg, st, acting, now))
    ensures !cfg.enableBoost ==> (boost <==> st.boostActive && !CanExit(cfg, st, now))
  {
    ShouldActivate(cfg, st, acting, now) || (st.boostActive && !CanExit(cfg, st, now))
  }

  /** Boost bookkeeping: on the first boosted cycle of an episode save the
      target's fan and swing and stamp the start; later cycles change nothing. */
  function Enter(st: State, target: Snapshot, now: nat): (st': State)
    ensures st'.boostActive
    ensures Valid(st) ==> Valid(st')
    ensures st.boostActive ==> st' == st
    ensures !st.boostActive ==>
      && st'.boostStart == Some(now)
      && st'.savedFan == target.fanMode
      && st'.savedSwing == target.swingMode
    ensures st'.actionStart == st.actionStart
  {
    if st.boostActive then
      st
    else
      st.(savedFan := target.fanMode, savedSwing := target.swingMode,
          boostStart := Some(now), boostActive := true)
  }

  /** Boost exit: clears every boost field, leaving the continuity clock alone. */
  function Leave(st: State): (st': State)
    ensures !st'.boostActive && Valid(st')
    ensures st'.actionStart == st.actionStart
  {
    st.(boostActive := false, savedFan := None, savedSwing := None, boostStart := None)
  }
}

=== FILE: manager.dfy ===
/** The synchronisation manager: the re-entrancy guard, one sync cycle
    (availability checks, continuity clock, boost decision, boost or
    normal procedure) and the source-change event filter. */
module SyncManager {
  import opened Options
  import opened Climate
  import opened Dispatch
  import opened Setpoints
  import opened Boost
  import opened Hysteresis

  /** `syncing` is the re-entrancy guard, held for the duration of one cycle. */
  datatype Manager = Manager(syncing: bool, hysteresis: State)

  /** A newly constructed manager. */
  const Fresh: Manager := Manager(false, Initial)

  /** How a cycle ended. `Failed` carries the refused call that aborted it;
      the manager logs and swallows it. */
  datatype Outcome =
    | Busy
    | EntityMissing
    | SourceUnavailable
    | Completed
    | Failed(command: Command)

  /** What a procedure did: the new hysteresis state, the calls made, how it ended. */
  datatype Effect = Effect(hysteresis: State, issued: seq<Command>, outcome: Outcome)

  datatype CycleResult = CycleResult(manager: Manager, issued: seq<Command>, outcome: Outcome)

  function OutcomeOf(sent: Sent): (o: Outcome)
    ensures o.Completed? <==> sent.failed.None?
    ensures o.Failed? <==> sent.failed.Some?
    ensures o.Failed? ==> o.command == sent.failed.value
  {
    match sent.failed
    case None => Completed
    case Some(c) => Failed(c)
  }

  /** The calls of the normal procedure after any restores: the source's
      mode, then its setpoint(s) shifted and clamped, when it has any. */
  function NormalCommands(cfg: Config, mode: HvacMode, source: Snapshot, target: Snapshot): (cmds: seq<Command>)
    ensures 1 <= |cmds| <= 2
    ensures cmds[0] == SetHvacMode(mode)
    ensures |cmds| == 2 <==>
      if mode == HeatCool then source.targetTempLow.Some? || source.targetTempHigh.Some?
      else source.targetTemp.Some?
    ensures |cmds| == 2 ==>
      && (cmds[1].SetTemperature? || cmds[1].SetTemperatureRange?)
      && (target.MinTemp() <= target.MaxTemp() ==> WithinRange(cmds[1], target.MinTemp(), target.MaxTemp()))
    ensures |cmds| == 2 && cmds[1].SetTemperatureRange? ==> OrderedRange(cmds[1])
    ensures mode != HeatCool && |cmds| == 2 ==>
      cmds[1] == SetTemperature(Place(source.targetTemp.value, Offset(cfg, source.currentTemp, target.currentTemp),
                                      target.MinTemp(), target.MaxTemp()))
    ensures mode == HeatCool && |cmds| == 2 ==>
      var band := PlaceBand(source.targetTempLow, source.targetTempHigh, Offset(cfg, source.currentTemp, target.currentTemp),
                            target.MinTemp(), target.MaxTemp());
      cmds[1] == SetTemperatureRange(band.low, band.high)
  {
    var offset := Offset(cfg, source.currentTemp, target.currentTemp);
    match TemperatureCommand(mode, source, offset, target.MinTemp(), target.MaxTemp())
    case None => [SetHvacMode(mode)]
    case Some(c) => [SetHvacMode(mode), c]
  }

  /** The boost procedure: bookkeeping once per episode, then the boost
      calls, aborted by the first refused one. The bookkeeping is not
      rolled back when a call is refused. */
  function BoostProcedure(st: State, action: Option<HvacAction>, target: Snapshot, now: nat, rejects: set<Command>): (e: Effect)
    ensures e.hysteresis.boostActive && e.hysteresis.actionStart == st.actionStart
    ensures st.boostActive ==> e.hysteresis == st
    ensures !st.boostActive ==>
      && e.hysteresis.boostStart == Some(now)
      && e.hysteresis.savedFan == target.fanMode
      && e.hysteresis.savedSwing == target.swingMode
    ensures e.issued <= BoostCommands(action, target)
    ensures e.outcome.Completed? <==> AllAccepted(BoostCommands(action, target), rejects)
    ensures e.outcome.Completed? ==> e.issued == BoostCommands(action, target)
    ensures e.outcome.Completed? || e.outcome.Failed?
    ensures e.outcome.Failed? ==>
      |e.issued| > 0 && e.issued[|e.issued| - 1] == e.outcome.command && e.outcome.command in rejects
  {
    var cmds := BoostCommands(action, target);
    var sent := Send(cmds, rejects);
    Effect(Enter(st, target, now), sent.issued, OutcomeOf(sent))
  }

  /** The normal procedure: when leaving boost, restore the saved fan and
      swing (a refused restore is suppressed) and clear the boost state;
      then mirror the source's mode and setpoints. */
  function NormalProcedure(cfg: Config, st: State, mode: HvacMode, source: Snapshot, target: Snapshot, rejects: set<Command>): (e: Effect)
    ensures !e.hysteresis.boostActive && e.hysteresis.actionStart == st.actionStart
    ensures st.boostActive ==> Valid(e.hysteresis) && e.hysteresis.boostStart.None?
    ensures !st.boostActive ==> e.hysteresis == st
    ensures var restores := if st.boostActive then RestoreCommands(st.savedFan, st.savedSwing) else [];
      && |restores| < |e.issued|
      && e.issued[..|restores|] == restores
      && e.issued[|restores|] == SetHvacMode(mode)
      && e.issued[|restores|..] <= NormalCommands(cfg, mode, source, target)
    ensures e.outcome.Completed? <==> AllAccepted(NormalCommands(cfg, mode, source, target), rejects)
    ensures e.outcome.Completed? ==>
      e.issued == (if st.boostActive then RestoreCommands(st.savedFan, st.savedSwing) else [])
                  + NormalCommands(cfg, mode, source, target)
    ensures e.outcome.Completed? || e.outcome.Failed?
    ensures e.outcome.Failed? ==>
      |e.issued| > 0 && e.issued[|e.issued| - 1] == e.outcome.command && e.outcome.command in rejects
  {
    var restores := if st.boostActive then RestoreCommands(st.savedFan, st.savedSwing) else [];
    var cleared := if st.boostActive then Leave(st) else st;
    var sent := Send(NormalCommands(cfg, mode, source, target), rejects);
    assert (restores + sent.issued)[|restores|..] == sent.issued;
    Effect(cleared, restores + sent.issued, OutcomeOf(sent))
  }

  /** The body of a cycle, run with the guard held. */
  function Synchronise(cfg: Config, st: State, source: Option<Snapshot>, target: Option<Snapshot>, now: nat, rejects: set<Command>): (e: Effect)
    ensures source.None? || target.None? ==> e == Effect(st, [], EntityMissing)
    ensures source.Some? && target.Some? && !source.value.IsLive() ==> e == Effect(st, [], SourceUnavailable)
    ensures source.Some? && target.Some? && source.value.IsLive() ==> e.outcome.Completed? || e.outcome.Failed?
    ensures Valid(st) ==> Valid(e.hysteresis)
    ensures e.outcome.Failed? ==>
      |e.issued| > 0 && e.issued[|e.issued| - 1] == e.outcome.command && e.outcome.command in rejects
  {
    if source.None? || target.None? then
      Effect(st, [], EntityMissing)
    else if !source.value.IsLive() then
      Effect(st, [], SourceUnavailable)
    else
      var src, tgt := source.value, target.value;
      var acting := src.IsActing();
      var tracked := TrackAction(st, acting, now);
      if Boosting(cfg, tracked, acting, now) then
        BoostProcedure(tracked, src.action, tgt, now, rejects)
      else
        NormalProcedure(cfg, tracked, src.state.mode, src, tgt, rejects)
  }

  /** One sync cycle. A cycle started while another holds the guard does
      nothing; otherwise the guard is taken, the body runs, and the guard
      is released on every way out of it. */
  function Cycle(cfg: Config, m: Manager, source: Option<Snapshot>, target: Option<Snapshot>, now: nat, rejects: set<Command>): (r: CycleResult)
    ensures m.syncing ==> r == CycleResult(m, [], Busy)
    ensures !m.syncing ==> !r.manager.syncing && !r.outcome.Busy?
    ensures r.outcome.EntityMissing? <==> !m.syncing && (source.None? || target.None?)
    ensures r.outcome.SourceUnavailable? <==>
      !m.syncing && source.Some? && target.Some? && !source.value.IsLive()
    ensures r.outcome.Busy? || r.outcome.EntityMissing? || r.outcome.SourceUnavailable? ==>
      r.issued == [] && r.manager.hysteresis == m.hysteresis
    ensures r.outcome.Failed? ==>
      |r.issued| > 0 && r.issued[|r.issued| - 1] == r.outcome.command && r.outcome.command in rejects
    ensures Valid(m.hysteresis) ==> Valid(r.manager.hysteresis)
  {
    if m.syncing then
      CycleResult(m, [], Busy)
    else
      var held := m.(syncing := true);
      var e := Synchronise(cfg, held.hysteresis, source, target, now, rejects);
      CycleResult(Manager(false, e.hysteresis), e.issued, e.outcome)
  }

  /** What the source-change handler does with an event. */
  datatype Trigger = Dropped | Scheduled

  /** Drops the event while a cycle holds the guard, or when the new source
      state is absent, unavailable or unknown; otherwise schedules a cycle. */
  function OnSourceChanged(m: Manager, newState: Option<Snapshot>): (t: Trigger)
    ensures t == Scheduled ==> !m.syncing && newState.Some? && newState.value.IsLive()
    ensures t == Dropped ==> m.syncing || newState.None? || !newState.value.IsLive()
  {
    if m.syncing || newState.None? || !newState.value.IsLive() then Dropped else Scheduled
  }
}

=== FILE: options.dfy ===
/** An optional value: an entity attribute that may be missing, or a
    hysteresis timestamp that may be absent. Kept separate from zero so
    that "missing" and "0" never mix in the offset or clamp arithmetic. */
module Options {

  datatype Option<+T> = None | Some(value: T) {

    /** The wrapped value, or `default` when absent (Python's `dict.get(key, default)`). */
    function GetOr(default: T): T {
      match this
      case Some(v) => v
      case None => default
    }
  }
}

=== FILE: properties.dfy ===
/** Properties of one sync cycle: the guard, the continuity clock, when
    boost starts, holds and ends, what is saved and restored, that refused
    calls never change the hysteresis state, and that a repeated cycle is
    stable. */
module CycleProperties {
  import opened Options
  import opened Climate
  import opened Dispatch
  import opened Setpoints
  import opened Boost
  import opened Hysteresis
  import opened SyncManager

  /** Boost is due on this cycle, stated on the state before the cycle: boost
      is enabled, the source is live and heating or cooling, and it has been
      so for the activation delay (a run that starts on this cycle has lasted
      zero seconds). */
  predicate ActivationDue(cfg: Config, st: State, source: Snapshot, now: nat) {
    && cfg.enableBoost
    && source.IsLive()
    && source.IsActing()
    && match st.actionStart
       case Some(start) => now - start >= cfg.activationDelay * SecondsPerMinute
       case None => cfg.activationDelay == 0
  }

  /** The manager's activation test, made after the clock update, agrees with `ActivationDue`. */
  lemma ActivationDueMatches(cfg: Config, st: State, source: Snapshot, now: nat)
    requires source.IsLive()
    ensures ShouldActivate(cfg, TrackAction(st, source.IsActing(), now), source.IsActing(), now)
        <==> ActivationDue(cfg, st, source, now)
  {
  }

  /** The boost fields of the state, the part the continuity clock does not touch. */
  function BoostPart(st: State): State {
    st.(actionStart := None)
  }

  /** The continuity clock starts when the source starts heating or cooling,
      is kept while it goes on, and is cleared by any other action. */
  lemma ContinuityClock(cfg: Config, m: Manager, source: Snapshot, target: Snapshot, now: nat, rejects: set<Command>)
    requires !m.syncing && source.IsLive()
    ensures var start := Cycle(cfg, m, Some(source), Some(target), now, rejects).manager.hysteresis.actionStart;
      && (source.IsActing() && m.hysteresis.actionStart.Some? ==> start == m.hysteresis.actionStart)
      && (source.IsActing() && m.hysteresis.actionStart.None? ==> start == Some(now))
      && (!source.IsActing() ==> start.None?)
  {
  }

  /** From outside boost, a cycle enters boost exactly when boost is due. In
      particular a manager with boost disabled never enters it. */
  lemma ActivationRule(cfg: Config, m: Manager, source: Snapshot, target: Snapshot, now: nat, rejects: set<Command>)
    requires !m.syncing && !m.hysteresis.boostActive
    ensures Cycle(cfg, m, Some(source), Some(target), now, rejects).manager.hysteresis.boostActive
        <==> ActivationDue(cfg, m.hysteresis, source, now)
  {
    if source.IsLive() {
      ActivationDueMatches(cfg, m.hysteresis, source, now);
    }
  }

  /** With boost disabled and not already active, every cycle runs the
      normal procedure: it never touches fan or swing, and a live source's
      mode is the first call made. */
  lemma BoostDisabledStaysNormal(cfg: Config, m: Manager, source: Option<Snapshot>, target: Option<Snapshot>, now: nat, rejects: set<Command>)
    requires !m.syncing && !cfg.enableBoost && !m.hysteresis.boostActive
    ensures var r := Cycle(cfg, m, source, target, now, rejects);
      && !r.manager.hysteresis.boostActive
      && (forall i :: 0 <= i < |r.issued| ==> !r.issued[i].SetFanMode? && !r.issued[i].SetSwingMode?)
      && (source.Some? && target.Some? && source.value.IsLive() ==>
            r.issued[0] == SetHvacMode(source.value.state.mode))
  {
    var r := Cycle(cfg, m, source, target, now, rejects);
    var e1 := Synchronise(cfg, m.hysteresis, source, target, now, rejects);
    assert r == CycleResult(Manager(false, e1.hysteresis), e1.issued, e1.outcome);
    if source.Some? && target.Some? && source.value.IsLive() {
      var src, tgt := source.value, target.value;
      DisabledBodyIsNormal(cfg, m.hysteresis, src, tgt, now, rejects);
      NormalOutsideBoost(cfg, TrackAction(m.hysteresis, src.IsActing(), now), src.state.mode, src, tgt, rejects);
    } else {
      assert e1.issued == [] && e1.hysteresis == m.hysteresis;
    }
  }

  /** Outside boost the normal procedure stays out of boost, starts with
      the mode call and never sends a fan or swing call. */
  lemma NormalOutsideBoost(cfg: Config, st: State, mode: HvacMode, source: Snapshot, target: Snapshot, rejects: set<Command>)
    requires !st.boostActive
    ensures var e := NormalProcedure(cfg, st, mode, source, target, rejects);
      && !e.hysteresis.boostActive
      && |e.issued| > 0 && e.issued[0] == SetHvacMode(mode)
      && (forall i :: 0 <= i < |e.issued| ==> !e.issued[i].SetFanMode? && !e.issued[i].SetSwingMode?)
  {
    var e := NormalProcedure(cfg, st, mode, source, target, rejects);
    var cmds := NormalCommands(cfg, mode, source, target);
    assert e.issued == e.issued[0..] <= cmds;
    forall i | 0 <= i < |e.issued|
      ensures !e.issued[i].SetFanMode? && !e.issued[i].SetSwingMode?
    {
      assert e.issued[i] == cmds[i];
    }
  }

  /** With boost disabled and inactive, the body of a cycle on a live
      source is the normal procedure. */
  lemma DisabledBodyIsNormal(cfg: Config, st: State, source: Snapshot, target: Snapshot, now: nat, rejects: set<Command>)
    requires !cfg.enableBoost && !st.boostActive && source.IsLive()
    ensures Synchronise(cfg, st, Some(source), Some(target), now, rejects)
         == NormalProcedure(cfg, TrackAction(st, source.IsActing(), now), source.state.mode, source, target, rejects)
  {
    var tracked := TrackAction(st, source.IsActing(), now);
    assert !tracked.boostActive && !Boosting(cfg, tracked, source.IsActing(), now);
  }

  /** While boost is active and started less than the minimum runtime ago,
      the boost procedure runs whatever the source is doing: the boost
      fields are left as they are and the boost calls are made. Heating
      gives heat at the target's maximum; any other action, including an
      idle source held by the lock, gives cool at the target's minimum. */
  lemma RuntimeLockHoldsBoost(cfg: Config, m: Manager, source: Snapshot, target: Snapshot, now: nat, rejects: set<Command>)
    requires !m.syncing && source.IsLive()
    requires m.hysteresis.boostActive && m.hysteresis.boostStart.Some?
    requires now - m.hysteresis.boostStart.value < cfg.minimumRuntime * SecondsPerMinute
    ensures var r := Cycle(cfg, m, Some(source), Some(target), now, rejects);
      && BoostPart(r.manager.hysteresis) == BoostPart(m.hysteresis)
      && 0 < |r.issued|
      && r.issued <= BoostCommands(source.action, target)
      && r.issued[0] == SetHvacMode(if source.action == Some(Heating) then Heat else Cool)
      && (1 < |r.issued| ==>
            r.issued[1] == SetTemperature(if source.action == Some(Heating) then target.MaxTemp() else target.MinTemp()))
  {
  }

  /** Once the minimum runtime is over and boost is not due, the cycle
      leaves boost: the restorable saved modes are put back first, every
      boost field is cleared even if a restore is refused, and the source's
      mode is then set. */
  lemma BoostExit(cfg: Config, m: Manager, source: Snapshot, target: Snapshot, now: nat, rejects: set<Command>)
    requires !m.syncing && Valid(m.hysteresis) && m.hysteresis.boostActive
    requires now - m.hysteresis.boostStart.value >= cfg.minimumRuntime * SecondsPerMinute
    requires source.IsLive() && !ActivationDue(cfg, m.hysteresis, source, now)
    ensures var r := Cycle(cfg, m, Some(source), Some(target), now, rejects);
      var restores := RestoreCommands(m.hysteresis.savedFan, m.hysteresis.savedSwing);
      && BoostPart(r.manager.hysteresis) == BoostPart(Initial)
      && |restores| < |r.issued|
      && r.issued[..|restores|] == restores
      && r.issued[|restores|] == SetHvacMode(source.state.mode)
  {
    ActivationDueMatches(cfg, m.hysteresis, source, now);
  }

  /** The converse of the exit rule: in boost, the cycle keeps boost
      exactly while the minimum runtime is still running or activation is
      due again, so boost is left only when both are over. */
  lemma BoostHeldRule(cfg: Config, m: Manager, source: Snapshot, target: Snapshot, now: nat, rejects: set<Command>)
    requires !m.syncing && Valid(m.hysteresis) && m.hysteresis.boostActive && source.IsLive()
    ensures Cycle(cfg, m, Some(source), Some(target), now, rejects).manager.hysteresis.boostActive
        <==> (now - m.hysteresis.boostStart.value < cfg.minimumRuntime * SecondsPerMinute
              || ActivationDue(cfg, m.hysteresis, source, now))
  {
    ActivationDueMatches(cfg, m.hysteresis, source, now);
  }

  /** A cycle that runs the boost procedure (activation due, or the
      runtime lock still holding) keeps boost and sends the boost calls for
      the current action: a prefix of them, all of them exactly when the
      host accepts them all. This covers entering boost, the locked cycles
      and boost held past the runtime while activation is still due. */
  lemma BoostCycleSendsBoostCalls(cfg: Config, m: Manager, source: Snapshot, target: Snapshot, now: nat, rejects: set<Command>)
    requires !m.syncing && Valid(m.hysteresis) && source.IsLive()
    requires ActivationDue(cfg, m.hysteresis, source, now)
          || (m.hysteresis.boostActive && now - m.hysteresis.boostStart.value < cfg.minimumRuntime * SecondsPerMinute)
    ensures var r := Cycle(cfg, m, Some(source), Some(target), now, rejects);
      var calls := BoostCommands(source.action, target);
      && r.manager.hysteresis.boostActive
      && r.issued <= calls
      && (r.outcome == Completed <==> AllAccepted(calls, rejects))
      && (AllAccepted(calls, rejects) ==> r.issued == calls)
  {
    ActivationDueMatches(cfg, m.hysteresis, source, now);
  }

  /** A cycle that runs the normal procedure (boost not due, and any
      runtime lock over) mirrors the source: after the restores it sends
      the source's mode and then its setpoints placed on the target, in
      that order, and completes exactly when the host accepts those
      calls. A host accepting them gets the restores and then exactly
      those calls. */
  lemma NormalCycleMirrorsSource(cfg: Config, m: Manager, source: Snapshot, target: Snapshot, now: nat, rejects: set<Command>)
    requires !m.syncing && Valid(m.hysteresis) && source.IsLive() && !ActivationDue(cfg, m.hysteresis, source, now)
    requires m.hysteresis.boostActive ==>
      now - m.hysteresis.boostStart.value >= cfg.minimumRuntime * SecondsPerMinute
    ensures var r := Cycle(cfg, m, Some(source), Some(target), now, rejects);
      var restores := if m.hysteresis.boostActive then RestoreCommands(m.hysteresis.savedFan, m.hysteresis.savedSwing) else [];
      var calls := NormalCommands(cfg, source.state.mode, source, target);
      && |restores| < |r.issued|
      && r.issued[..|restores|] == restores
      && r.issued[|restores|..] <= calls
      && (r.outcome == Completed <==> AllAccepted(calls, rejects))
      && (AllAccepted(calls, rejects) ==> r.issued == restores + calls)
      && !r.manager.hysteresis.boostActive
  {
    ActivationDueMatches(cfg, m.hysteresis, source, now);
  }

  /** The fan and swing modes and the boost start are recorded on the cycle
      that enters boost and never overwritten by later boosted cycles. */
  lemma SaveOncePerEpisode(cfg: Config, m: Manager, source: Option<Snapshot>, target: Snapshot, now: nat, rejects: set<Command>)
    requires !m.syncing
    ensures var st := Cycle(cfg, m, source, Some(target), now, rejects).manager.hysteresis;
      && (m.hysteresis.boostActive && st.boostActive ==>
            && st.savedFan == m.hysteresis.savedFan
            && st.savedSwing == m.hysteresis.savedSwing
            && st.boostStart == m.hysteresis.boostStart)
      && (!m.hysteresis.boostActive && st.boostActive ==>
            && st.savedFan == target.fanMode
            && st.savedSwing == target.swingMode
            && st.boostStart == Some(now))
  {
  }

  /** Refused calls end a cycle early but never change what it does to the
      hysteresis state, and the calls made are a prefix of those a host
      refusing nothing would see. */
  lemma FailuresDoNotChangeState(cfg: Config, m: Manager, source: Option<Snapshot>, target: Option<Snapshot>, now: nat, rejects: set<Command>)
    ensures Cycle(cfg, m, source, target, now, rejects).manager == Cycle(cfg, m, source, target, now, {}).manager
    ensures Cycle(cfg, m, source, target, now, rejects).issued <= Cycle(cfg, m, source, target, now, {}).issued
  {
    if !m.syncing && source.Some? && target.Some? && source.value.IsLive() {
      var src, tgt := source.value, target.value;
      var tracked := TrackAction(m.hysteresis, src.IsActing(), now);
      if !Boosting(cfg, tracked, src.IsActing(), now) {
        var restores := if tracked.boostActive then RestoreCommands(tracked.savedFan, tracked.savedSwing) else [];
        var cmds := NormalCommands(cfg, src.state.mode, src, tgt);
        var refused := Send(cmds, rejects).issued;
        assert Send(cmds, {}).issued == cmds;
        assert refused <= cmds;
        PrefixAfterCommonPart(restores, refused, cmds);
      }
    }
  }

  lemma PrefixAfterCommonPart(common: seq<Command>, a: seq<Command>, b: seq<Command>)
    requires a <= b
    ensures common + a <= common + b
  {
  }

  /** `e2` leaves the state `e1` left and makes the calls of `e1` with a
      leading part (possibly empty) left out. */
  predicate RepeatsTail(e1: Effect, e2: Effect) {
    && e2.hysteresis == e1.hysteresis
    && |e2.issued| <= |e1.issued|
    && e2.issued == e1.issued[|e1.issued| - |e2.issued|..]
  }

  /** Running a cycle again at the same moment on the same readings leaves
      the state where the first run put it, and repeats its calls: all of
      them, or all but the restores of a boost exit (commands are never
      deduplicated across cycles). */
  lemma RepeatedCycleIsStable(cfg: Config, m: Manager, source: Option<Snapshot>, target: Option<Snapshot>, now: nat, rejects: set<Command>)
    requires !m.syncing && Valid(m.hysteresis)
    ensures var r1 := Cycle(cfg, m, source, target, now, rejects);
      var r2 := Cycle(cfg, r1.manager, source, target, now, rejects);
      && r2.manager == r1.manager
      && |r2.issued| <= |r1.issued|
      && r2.issued == r1.issued[|r1.issued| - |r2.issued|..]
      && (!m.hysteresis.boostActive || r1.manager.hysteresis.boostActive ==> r2.issued == r1.issued)
  {
    var e1 := Synchronise(cfg, m.hysteresis, source, target, now, rejects);
    var e2 := Synchronise(cfg, e1.hysteresis, source, target, now, rejects);
    assert Cycle(cfg, m, source, target, now, rejects) == CycleResult(Manager(false, e1.hysteresis), e1.issued, e1.outcome);
    assert Cycle(cfg, Manager(false, e1.hysteresis), source, target, now, rejects)
        == CycleResult(Manager(false, e2.hysteresis), e2.issued, e2.outcome);
    if source.Some? && target.Some? && source.value.IsLive() {
      SynchroniseRepeats(cfg, m.hysteresis, source.value, target.value, now, rejects);
    }
  }

  /** The cycle body on a live source, run again at the same moment on the
      state it left, takes the same branch and repeats its calls, without
      the restores of a boost exit. */
  lemma SynchroniseRepeats(cfg: Config, st: State, source: Snapshot, target: Snapshot, now: nat, rejects: set<Command>)
    requires source.IsLive()
    ensures var e1 := Synchronise(cfg, st, Some(source), Some(target), now, rejects);
      var e2 := Synchronise(cfg, e1.hysteresis, Some(source), Some(target), now, rejects);
      && RepeatsTail(e1, e2)
      && (!st.boostActive || e1.hysteresis.boostActive ==> e2.issued == e1.issued)
  {
    var acting := source.IsActing();
    if Boosting(cfg, TrackAction(st, acting, now), acting, now) {
      BoostBranchRepeats(cfg, st, source, target, now, rejects);
    } else {
      NormalBranchRepeats(cfg, st, source, target, now, rejects);
    }
  }

  /** A boosted cycle body, run again on the state it left, does exactly
      the same again. */
  lemma BoostBranchRepeats(cfg: Config, st: State, source: Snapshot, target: Snapshot, now: nat, rejects: set<Command>)
    requires source.IsLive() && Boosting(cfg, TrackAction(st, source.IsActing(), now), source.IsActing(), now)
    ensures var e1 := Synchronise(cfg, st, Some(source), Some(target), now, rejects);
      Synchronise(cfg, e1.hysteresis, Some(source), Some(target), now, rejects) == e1
  {
    var acting := source.IsActing();
    var tracked := TrackAction(st, acting, now);
    var e1 := BoostProcedure(tracked, source.action, target, now, rejects);
    assert Synchronise(cfg, st, Some(source), Some(target), now, rejects) == e1;
    var st1 := e1.hysteresis;
    assert Synchronise(cfg, st1, Some(source), Some(target), now, rejects)
        == BoostProcedure(st1, source.action, target, now, rejects) by {
      assert TrackAction(st1, acting, now) == st1;
      assert Boosting(cfg, st1, acting, now);
    }
    BoostProcedureRepeats(tracked, source.action, target, now, rejects);
  }

  /** A normal cycle body, run again on the state it left, repeats its
      calls without the restores and leaves the state alone. */
  lemma NormalBranchRepeats(cfg: Config, st: State, source: Snapshot, target: Snapshot, now: nat, rejects: set<Command>)
    requires source.IsLive() && !Boosting(cfg, TrackAction(st, source.IsActing(), now), source.IsActing(), now)
    ensures var e1 := Synchronise(cfg, st, Some(source), Some(target), now, rejects);
      var e2 := Synchronise(cfg, e1.hysteresis, Some(source), Some(target), now, rejects);
      && RepeatsTail(e1, e2)
      && (!st.boostActive ==> e2.issued == e1.issued)
  {
    var acting := source.IsActing();
    var tracked := TrackAction(st, acting, now);
    var e1 := NormalProcedure(cfg, tracked, source.state.mode, source, target, rejects);
    assert Synchronise(cfg, st, Some(source), Some(target), now, rejects) == e1;
    var st1 := e1.hysteresis;
    assert Synchronise(cfg, st1, Some(source), Some(target), now, rejects)
        == NormalProcedure(cfg, st1, source.state.mode, source, target, rejects) by {
      assert TrackAction(st1, acting, now) == st1;
      assert !ShouldActivate(cfg, tracked, acting, now);
      assert !st1.boostActive && st1.actionStart == tracked.actionStart;
      assert !Boosting(cfg, st1, acting, now);
    }
    NormalProcedureRepeats(cfg, tracked, source.state.mode, source, target, rejects);
  }

  /** The boost procedure run again on the state it left repeats its
      calls and outcome and leaves the state alone. */
  lemma BoostProcedureRepeats(st: State, action: Option<HvacAction>, target: Snapshot, now: nat, rejects: set<Command>)
    ensures var e1 := BoostProcedure(st, action, target, now, rejects);
      BoostProcedure(e1.hysteresis, action, target, now, rejects) == e1
  {
    var e1 := BoostProcedure(st, action, target, now, rejects);
    assert e1.hysteresis.boostActive;
    assert Enter(e1.hysteresis, target, now) == e1.hysteresis;
  }

  /** The normal procedure run again on the state it left repeats its
      calls without the restores, and leaves the state alone. */
  lemma NormalProcedureRepeats(cfg: Config, st: State, mode: HvacMode, source: Snapshot, target: Snapshot, rejects: set<Command>)
    ensures var e1 := NormalProcedure(cfg, st, mode, source, target, rejects);
      var e2 := NormalProcedure(cfg, e1.hysteresis, mode, source, target, rejects);
      && RepeatsTail(e1, e2)
      && (!st.boostActive ==> e2.issued == e1.issued)
  {
    var e1 := NormalProcedure(cfg, st, mode, source, target, rejects);
    var restores := if st.boostActive then RestoreCommands(st.savedFan, st.savedSwing) else [];
    var sent := Send(NormalCommands(cfg, mode, source, target), rejects);
    assert e1.issued == restores + sent.issued;
    var st1 := e1.hysteresis;
    assert !st1.boostActive;
    var e2 := NormalProcedure(cfg, st1, mode, source, target, rejects);
    assert e2.issued == [] + sent.issued == sent.issued;
    assert e1.issued[|restores|..] == sent.issued;
  }

  /** With boost disabled, the calls of a cycle depend only on the readings:
      two managers outside boost, at any two moments, make the same calls. */
  lemma NormalCallsIgnoreHistory(cfg: Config, m1: Manager, m2: Manager, source: Option<Snapshot>, target: Option<Snapshot>, now1: nat, now2: nat, rejects: set<Command>)
    requires !cfg.enableBoost
    requires !m1.syncing && !m1.hysteresis.boostActive
    requires !m2.syncing && !m2.hysteresis.boostActive
    ensures Cycle(cfg, m1, source, target, now1, rejects).issued == Cycle(cfg, m2, source, target, now2, rejects).issued
  {
  }

  /** An event the handler schedules is one the cycle acts on, if the cycle
      reads the same source state and finds the target: it gets past the
      availability checks and releases the guard. */
  lemma ScheduledEventSyncs(cfg: Config, m: Manager, newState: Snapshot, target: Snapshot, now: nat, rejects: set<Command>)
    requires OnSourceChanged(m, Some(newState)) == Scheduled
    ensures var r := Cycle(cfg, m, Some(newState), Some(target), now, rejects);
      && (r.outcome.Completed? || r.outcome.Failed?)
      && |r.issued| > 0
      && !r.manager.syncing
  {
  }
}

=== FILE: scenarios.dfy ===
/** Concrete cycles stated on the model: particular readings, clocks and
    refusals, and the calls and state each cycle produces. */
module Scenarios {
  import opened Options
  import opened Climate
  import opened Setpoints
  import opened Boost
  import opened Hysteresis
  import opened SyncManager
  import opened Dispatch

  /** Offset on at sensitivity 1, boost on with no activation delay and a
      ten-minute minimum runtime. */
  const BoostNoDelay: Config := Config(true, true, 1.0, 0, 10)

  function Reading(state: EntityState, action: Option<HvacAction>, current: Option<real>, setpoint: Option<real>): Snapshot {
    Snapshot(state, action, current, setpoint, None, None, None, None, [], [], None, None)
  }

  /** The offset with sensitivity 1 is the raw difference, with 0.5 half of
      it, and zero when either current temperature is missing. */
  lemma OffsetExamples()
    ensures Offset(BoostNoDelay, Some(22.0), Some(20.0)) == 2.0
    ensures Offset(BoostNoDelay.(sensitivity := 0.5), Some(22.0), Some(20.0)) == 1.0
    ensures Offset(BoostNoDelay, None, Some(20.0)) == 0.0
    ensures Offset(BoostNoDelay.(enableOffset := false), Some(22.0), Some(20.0)) == 0.0
  {
  }

  /** Clamping into [16, 30] and the swap of an inverted band. */
  lemma ClampExamples()
    ensures Place(34.0, 0.0, 16.0, 30.0) == 30.0
    ensures Place(10.0, 0.0, 16.0, 30.0) == 16.0
    ensures PlaceBand(Some(26.0), Some(24.0), 0.0, 16.0, 30.0) == Band(Some(24.0), Some(26.0))
  {
  }

  /** A heating source with no activation delay: the first cycle of a fresh
      manager enters boost, sets heat at the target's maximum (30 by
      default), the most powerful supported fan, and automatic swing. */
  lemma FirstCycleBoosts()
    ensures var source := Reading(Mode(Heat), Some(Heating), Some(21.0), Some(22.0));
      var target := Reading(Mode(Cool), Some(Idle), Some(23.0), Some(24.0))
        .(fanModes := ["low", "high", "auto"], swingModes := ["fixed", "auto"], fanMode := Some("low"));
      var r := Cycle(BoostNoDelay, Fresh, Some(source), Some(target), 1000, {});
      && r.outcome == Completed
      && r.issued == [SetHvacMode(Heat), SetTemperature(30.0), SetFanMode("high"), SetSwingMode("auto")]
      && r.manager.hysteresis == State(Some(1000), true, Some(1000), Some("low"), None)
  {
    var source := Reading(Mode(Heat), Some(Heating), Some(21.0), Some(22.0));
    var target := Reading(Mode(Cool), Some(Idle), Some(23.0), Some(24.0))
      .(fanModes := ["low", "high", "auto"], swingModes := ["fixed", "auto"], fanMode := Some("low"));
    HeatingBoostCalls(target);
    var tracked := TrackAction(Initial, true, 1000);
    assert tracked == State(Some(1000), false, None, None, None);
    assert Boosting(BoostNoDelay, tracked, true, 1000);
    var e := BoostProcedure(tracked, Some(Heating), target, 1000, {});
    assert Synchronise(BoostNoDelay, Initial, Some(source), Some(target), 1000, {}) == e;
    assert AllAccepted(BoostCommands(Some(Heating), target), {});
  }

  lemma HeatingBoostCalls(target: Snapshot)
    requires target.fanModes == ["low", "high", "auto"] && target.swingModes == ["fixed", "auto"]
    requires target.maxTemp.None?
    ensures BoostCommands(Some(Heating), target)
         == [SetHvacMode(Heat), SetTemperature(30.0), SetFanMode("high"), SetSwingMode("auto")]
  {
    var fans := target.fanModes;
    assert FanPreference[0] !in fans && FanPreference[1] !in fans && FanPreference[2] in fans;
    assert FirstSupported(FanPreference[2..], fans) == Some(0);
    assert FirstSupported(FanPreference[1..], fans) == Some(1);
    assert BoostFan(fans) == Some("high");
    assert AutoSwing in target.swingModes;
  }

  /** Boost entered while heating, then the source goes idle one minute
      later, inside the ten-minute minimum runtime: the held boost
      procedure switches the target to cool at its minimum. */
  lemma LockedIdleBoostCools()
    ensures var target := Reading(Mode(Heat), Some(Heating), Some(19.0), Some(30.0));
      var boosted := Manager(false, State(None, true, Some(0), Some("low"), None));
      var idle := Reading(Mode(Heat), Some(Idle), Some(21.0), Some(21.0));
      var r := Cycle(BoostNoDelay, boosted, Some(idle), Some(target), 60, {});
      && r.issued == [SetHvacMode(Cool), SetTemperature(16.0)]
      && r.manager.hysteresis.boostActive
  {
  }

  /** A refused boost call aborts the cycle, yet boost is recorded as entered. */
  lemma RefusedBoostKeepsBookkeeping()
    ensures var source := Reading(Mode(Cool), Some(Cooling), Some(27.0), Some(24.0));
      var target := Reading(Mode(Cool), Some(Idle), Some(26.0), Some(24.0));
      var r := Cycle(BoostNoDelay, Fresh, Some(source), Some(target), 5, {SetHvacMode(Cool)});
      && r.outcome == Failed(SetHvacMode(Cool))
      && r.issued == [SetHvacMode(Cool)]
      && r.manager.hysteresis.boostActive
      && r.manager.hysteresis.boostStart == Some(5)
  {
  }
}

=== FILE: setpoints.dfy ===
/** Setpoint arithmetic of the normal procedure: the proportional offset,
    clamping into the target's settable range, and the dual-setpoint band
    with its low/high swap. */
module Setpoints {
  import opened Options
  import opened Climate

  function Min(a: real, b: real): real { if a <= b then a else b }
  function Max(a: real, b: real): real { if a >= b then a else b }

  /** Python's `max(lo, min(hi, x))`. */
  function Clamp(x: real, lo: real, hi: real): (r: real)
    ensures lo <= hi ==> lo <= r <= hi
    ensures lo <= x <= hi ==> r == x
    ensures x < lo ==> r == lo
    ensures lo <= hi < x ==> r == hi
    ensures hi < lo ==> r == lo
  {
    Max(lo, Min(hi, x))
  }

  /** The correction added to the mirrored setpoints. It is zero unless the
      offset is enabled and both current temperatures are known. */
  function Offset(cfg: Config, sourceTemp: Option<real>, targetTemp: Option<real>): (r: real)
    ensures !cfg.enableOffset || sourceTemp.None? || targetTemp.None? ==> r == 0.0
    ensures cfg.enableOffset && sourceTemp.Some? && targetTemp.Some? && cfg.sensitivity == 1.0 ==>
      targetTemp.value + r == sourceTemp.value
    ensures cfg.enableOffset && sourceTemp.Some? && targetTemp.Some? && cfg.sensitivity > 0.0 ==>
      (r > 0.0 <==> sourceTemp.value > targetTemp.value)
  {
    if cfg.enableOffset && sourceTemp.Some? && targetTemp.Some? then
      var difference := sourceTemp.value - targetTemp.value;
      difference * cfg.sensitivity
    else
      0.0
  }

  /** The offset is proportional to the sensitivity: sensitivity `k` gives
      `k` times the raw difference the sensitivity 1 offset gives. */
  lemma OffsetIsProportional(cfg: Config, sourceTemp: Option<real>, targetTemp: Option<real>)
    ensures Offset(cfg, sourceTemp, targetTemp)
         == cfg.sensitivity * Offset(cfg.(sensitivity := 1.0), sourceTemp, targetTemp)
  {
  }

  /** Where a mirrored setpoint lands on the target: shifted by the offset
      and clamped into the target's range. A shifted value inside the
      range is sent as is; one outside it is sent as the nearer bound. */
  function Place(setpoint: real, offset: real, lo: real, hi: real): (r: real)
    ensures lo <= hi ==> lo <= r <= hi
    ensures lo <= setpoint + offset <= hi ==> r == setpoint + offset
    ensures setpoint + offset < lo ==> r == lo
    ensures lo <= hi < setpoint + offset ==> r == hi
  {
    Clamp(setpoint + offset, lo, hi)
  }

  /** The low/high pair sent in the dual-setpoint mode, either possibly absent. */
  datatype Band = Band(low: Option<real>, high: Option<real>)

  /** Places each present bound and swaps them if the placed low exceeds the placed high. */
  function PlaceBand(low: Option<real>, high: Option<real>, offset: real, lo: real, hi: real): (b: Band)
    ensures b.low.Some? <==> low.Some?
    ensures b.high.Some? <==> high.Some?
    ensures b.low.Some? && b.high.Some? ==> b.low.value <= b.high.value
    ensures low.Some? && high.Some? ==>
      multiset{b.low.value, b.high.value}
        == multiset{Place(low.value, offset, lo, hi), Place(high.value, offset, lo, hi)}
    ensures low.Some? && high.None? ==> b.low.value == Place(low.value, offset, lo, hi)
    ensures low.None? && high.Some? ==> b.high.value == Place(high.value, offset, lo, hi)
    ensures lo <= hi && b.low.Some? ==> lo <= b.low.value <= hi
    ensures lo <= hi && b.high.Some? ==> lo <= b.high.value <= hi
  {
    var l := if low.Some? then Some(Place(low.value, offset, lo, hi)) else None;
    var h := if high.Some? then Some(Place(high.value, offset, lo, hi)) else None;
    if l.Some? && h.Some? && l.value > h.value then Band(h, l) else Band(l, h)
  }

  /** The set-temperature call of the normal procedure, if any. The
      dual-setpoint mode mirrors low/high and ignores the single setpoint;
      every other mode mirrors the single setpoint and ignores low/high. */
  function TemperatureCommand(mode: HvacMode, source: Snapshot, offset: real, lo: real, hi: real): (c: Option<Command>)
    ensures c.None? <==>
      if mode == HeatCool then source.targetTempLow.None? && source.targetTempHigh.None?
      else source.targetTemp.None?
    ensures c.Some? && mode == HeatCool ==>
      c.value == SetTemperatureRange(
        PlaceBand(source.targetTempLow, source.targetTempHigh, offset, lo, hi).low,
        PlaceBand(source.targetTempLow, source.targetTempHigh, offset, lo, hi).high)
    ensures c.Some? && mode != HeatCool ==>
      c.value == SetTemperature(Place(source.targetTemp.value, offset, lo, hi))
    ensures c.Some? && lo <= hi ==> WithinRange(c.value, lo, hi)
    ensures c.Some? && c.value.SetTemperatureRange? ==> OrderedRange(c.value)
  {
    if mode == HeatCool then
      var b := PlaceBand(source.targetTempLow, source.targetTempHigh, offset, lo, hi);
      if b.low.None? && b.high.None? then None else Some(SetTemperatureRange(b.low, b.high))
    else if source.targetTemp.Some? then
      Some(SetTemperature(Place(source.targetTemp.value, offset, lo, hi)))
    else
      None
  }

  /** Every temperature a command carries lies in `[lo, hi]`. */
  predicate WithinRange(c: Command, lo: real, hi: real) {
    match c
    case SetTemperature(t) => lo <= t <= hi
    case SetTemperatureRange(l, h) =>
      (l.Some? ==> lo <= l.value <= hi) && (h.Some? ==> lo <= h.value <= hi)
    case _ => true
  }

  /** A dual-setpoint call never sends an inverted band. */
  predicate OrderedRange(c: Command)
    requires c.SetTemperatureRange?
  {
    c.low.Some? && c.high.Some? ==> c.low.value <= c.high.value
  }

  /** A setpoint already inside the target's range passes through unchanged
      when there is no offset, and a band already in order is sent as is. */
  lemma InRangeBandUnchanged(low: real, high: real, lo: real, hi: real)
    requires lo <= low <= high <= hi
    ensures PlaceBand(Some(low), Some(high), 0.0, lo, hi) == Band(Some(low), Some(high))
  {
  }
}

=== FILE: traces.dfy ===
/** Sequences of cycles, as the event trigger and the periodic timer fire
    them one after another, and the properties that hold across them. */
module Traces {
  import opened Options
  import opened Climate
  import opened Hysteresis
  import opened SyncManager
  import opened CycleProperties

  /** The readings, the clock and the host's refusals one cycle sees. */
  datatype Tick = Tick(source: Option<Snapshot>, target: Option<Snapshot>, now: nat, rejects: set<Command>)

  datatype RunResult = RunResult(manager: Manager, issued: seq<Command>)

  /** Runs one cycle per tick, in order, collecting every call made. */
  function Run(cfg: Config, m: Manager, ticks: seq<Tick>): (r: RunResult)
    ensures !m.syncing ==> !r.manager.syncing
    ensures Valid(m.hysteresis) ==> Valid(r.manager.hysteresis)
    decreases |ticks|
  {
    if |ticks| == 0 then
      RunResult(m, [])
    else
      var c := Cycle(cfg, m, ticks[0].source, ticks[0].target, ticks[0].now, ticks[0].rejects);
      var rest := Run(cfg, c.manager, ticks[1..]);
      RunResult(rest.manager, c.issued + rest.issued)
  }

  /** A manager with boost disabled that is not in boost never enters it,
      and never sends a fan or swing call, however many cycles run. */
  lemma {:induction false} DisabledBoostNeverEngages(cfg: Config, m: Manager, ticks: seq<Tick>)
    requires !cfg.enableBoost && !m.syncing && !m.hysteresis.boostActive
    ensures var r := Run(cfg, m, ticks);
      && !r.manager.hysteresis.boostActive
      && forall i :: 0 <= i < |r.issued| ==> !r.issued[i].SetFanMode? && !r.issued[i].SetSwingMode?
    decreases |ticks|
  {
    if |ticks| > 0 {
      var t := ticks[0];
      BoostDisabledStaysNormal(cfg, m, t.source, t.target, t.now, t.rejects);
      var c := Cycle(cfg, m, t.source, t.target, t.now, t.rejects);
      DisabledBoostNeverEngages(cfg, c.manager, ticks[1..]);
    }
  }

  /** The source is found, live and heating or cooling on the tick. */
  predicate ActingTick(t: Tick) {
    t.source.Some? && t.target.Some? && t.source.value.IsLive() && t.source.value.IsActing()
  }

  /** While the source goes on acting, the continuity clock keeps the start
      of the run, and boost is not entered before the activation delay has
      passed since that start. */
  lemma {:induction false} NoBoostBeforeDelay(cfg: Config, m: Manager, ticks: seq<Tick>, start: nat)
    requires !m.syncing && !m.hysteresis.boostActive && m.hysteresis.actionStart == Some(start)
    requires forall i :: 0 <= i < |ticks| ==> ActingTick(ticks[i])
    requires forall i :: 0 <= i < |ticks| ==> ticks[i].now - start < cfg.activationDelay * SecondsPerMinute
    ensures var r := Run(cfg, m, ticks);
      && !r.manager.hysteresis.boostActive
      && r.manager.hysteresis.actionStart == Some(start)
    decreases |ticks|
  {
    if |ticks| > 0 {
      var t := ticks[0];
      assert ActingTick(t);
      ContinuityClock(cfg, m, t.source.value, t.target.value, t.now, t.rejects);
      ActivationRule(cfg, m, t.source.value, t.target.value, t.now, t.rejects);
      var c := Cycle(cfg, m, t.source, t.target, t.now, t.rejects);
      NoBoostBeforeDelay(cfg, c.manager, ticks[1..], start);
    }
  }

  /** After cycles of a run of heating or cooling that started at `start`,
      all before the activation delay, the next acting cycle enters boost
      exactly when it comes at least the delay after `start`: not one
      second earlier. */
  lemma BoostEngagesAtDelay(cfg: Config, m: Manager, ticks: seq<Tick>, start: nat, last: Tick)
    requires cfg.enableBoost
    requires !m.syncing && !m.hysteresis.boostActive && m.hysteresis.actionStart == Some(start)
    requires forall i :: 0 <= i < |ticks| ==> ActingTick(ticks[i])
    requires forall i :: 0 <= i < |ticks| ==> ticks[i].now - start < cfg.activationDelay * SecondsPerMinute
    requires ActingTick(last)
    ensures var p := Run(cfg, m, ticks);
      var next := Cycle(cfg, p.manager, last.source, last.target, last.now, last.rejects);
      next.manager.hysteresis.boostActive <==> last.now - start >= cfg.activationDelay * SecondsPerMinute
  {
    NoBoostBeforeDelay(cfg, m, ticks, start);
    var p := Run(cfg, m, ticks);
    ActivationRule(cfg, p.manager, last.source.value, last.target.value, last.now, last.rejects);
  }
}
